=== FILE: README.md ===
# U-Net wiring, run configuration and ground-truth masks of utorch, in Dafny

This project models three pieces of integer- and string-level logic from a
PyTorch repository that trains segmentation networks for ovarian ultrasound
images. It proves properties of that model.

1. **The U-Net family** (`python/nets/unet.py`). Each module is reduced to what it does to a
   tensor's shape `(channels, height, width)`:
   - the blocks `inconv`, `fwdconv`, `downconv`, `outconv` and `upconv`;
   - the networks `Unet`, `Unet2` (one head or a list of heads) and `InstSegNet`.

   A block keeps its constructor arguments, and its `nn.Sequential` is a computed layer list. Layers follow
   the framework's size rules: convolution `(H + 2p - k) div s + 1` and transposed
   convolution `(H - 1)·s + k`. Bilinear upsampling doubles H and W, and channel concatenation
   requires equal H and W. A shape the framework would reject is an error result.
   The encoder/decoder body is defined recursively over its levels: down stage k
   pairs with up stage n-1-k. A generic theorem covers every body that satisfies a
   channel-wiring predicate (`WellWired`): such a network accepts an input exactly
   when it has the input block's channel count and its H and W are positive
   multiples of 2^n. The output maps then have the input's H and W. The theorem is
   instantiated for `Unet`, `Unet2` and `InstSegNet` (n = 6, so multiples of 64).
2. **The run configuration** (`python/main.py`). The parsed arguments form a record.
   Pure functions give:
   - the dataset/multitask setup and the feature-flag adjustments;
   - `gettrainname`, with the clock as an input, plus the log and checkpoint paths;
   - network construction, optimizer and loss.

   The string tests are modelled as written, quirks included:
   - the multitask test is for `'ovarian'`, but the command line offers `'ovary'`;
   - the network test is for `'deeplab_v3'`, but the command line offers `'deeplab_v3+'`;
   - the optimizer uses `if`/`if`/`else`, so `'adam'` ends as SGD;
   - `Unet2` is called with a `bilinear=` keyword that its constructor does not
     have. That call is a construction error, so every run with the default
     arguments fails there.
3. **The training sample** (`train.py`):
   - image and ground truth are reduced to channel 0;
   - gray levels are thresholded at 128/2 and 255 - 128/2 into a one-hot (H, W, 3) mask;
   - `np.reshape` turns the mask into (3, H, W). This keeps the row-major element
     order, so it is not a transpose; a concrete input shows the difference;
   - the ground truth fed to the loss is selected by criterion.

`Unet` and `Unet2` are six-stage networks with stride-2 down-convolutions;
`Unet2`'s constructor has no `bilinear` parameter.

Files: `results.dfy` (Result/Option), `arith.dfy` (powers of two and div/mod facts),
`layers.dfy`, `blocks.dfy`, `unets.dfy`, `train_names.dfy`, `run_config.dfy`,
`samples.dfy`.

## Model

| member | source | states |
|---|---|---|
| Layers.ConvOut | python/nets/unet.py:67 | a convolution whose kernel fits in the padded input produces at least one position |
| Layers.ConvOutPlacements | python/nets/unet.py:67 | the output length counts the kernel placements in the padded input: the last fits, (r-1)·s + k ≤ H + 2p, and one more stride would not, H + 2p < r·s + k |
| Layers.TransposedOutInverse | python/nets/unet.py:90 | the transposed-convolution size rule is undone by the convolution with the same kernel and stride |
| Layers.Apply | python/nets/unet.py:24-30 | dropout and ReLU keep the shape; batch norm accepts exactly its feature count; a convolution accepts only its in_ch and yields out_ch channels; upsampling keeps channels |
| Layers.Concat | python/nets/unet.py:100-103 | concatenation along channels succeeds exactly when H and W agree, giving the channel sum |
| Blocks.Sequential | python/nets/unet.py:24-30 | a block's layers are exactly: conv(in_ch, out_ch, k, s, p); then BatchNorm2d only if batch_norm; then Dropout2d only if dropout > 0; always ending in ReLU (the same list in fwdconv, downconv and outconv) |
| Blocks.BlockForward | python/nets/unet.py:58-77 | a block accepts exactly inputs with in_ch channels on which its kernel fits, and yields out_ch channels with the convolution size rule on H and W |
| Blocks.ConvDecides | python/nets/unet.py:24-30 | a block's output is its convolution's output: the batch norm, dropout and ReLU after it neither refuse an input nor change its shape |
| Blocks.BuildBlock | python/nets/unet.py:24-30 | constructing a block fails exactly when its dropout rate is above 1, the Dropout2d range check; a rate of 0 or below adds no Dropout2d and always constructs |
| Blocks.SameSizeBlock | python/nets/unet.py:16-129 | inconv, fwdconv (3x3, stride 1, pad 1) and outconv (1x1, pad 0) keep H and W and map in_ch to out_ch; empty inputs are refused |
| Blocks.DownBlock | python/nets/unet.py:58-72 | downconv (3x3, stride 2, pad 1) maps H to ceil(H/2), W likewise, and the channels to out_ch |
| Blocks.FuseBlocks | python/nets/unet.py:92-94 | upconv's first fwdconv takes in_ch + res_ch channels and the second out_ch; both have batch norm and no dropout |
| Blocks.FuseIgnoresRegularisation | python/nets/unet.py:83-94 | upconv's own batch_norm and dropout arguments do not affect its layers |
| Blocks.UpconvBuilds | python/nets/unet.py:92-94 | an upconv's two fusing blocks always construct, since they are built with dropout 0 whatever the upconv's own rate |
| Blocks.UpForwardShape | python/nets/unet.py:87-107 | with a skip tensor, upconv succeeds exactly when the skip has twice the input's H and W and the channels fit (in_ch and res_ch separately after a transposed conv, their sum after bilinear upsampling); the result is out_ch × 2H × 2W in both modes |
| Blocks.UpForwardNoSkip | python/nets/unet.py:96-101 | without a skip tensor, upconv upsamples and fuses, doubling H and W |
| UNets.Core | python/nets/unet.py:179-191 | whenever the body succeeds, its output has the input's H and W: the skip concatenation forces it |
| UNets.HeadsForward | python/nets/unet.py:268-272 | the head list succeeds exactly when every head accepts the body output; the i-th result is the i-th head's output, in list order |
| UNets.CoreShape | python/nets/unet.py:177-191 | in a well-wired body, level k succeeds exactly when H and W are positive and halve evenly, rounding up, once per level below k, so that every skip concatenation lines up; it then returns the input's H and W with the level's output channels |
| UNets.BodyShape | python/nets/unet.py:177-191 | the whole body of a well-wired network accepts a non-empty input exactly when H and W are multiples of 2^(stages), and keeps H and W |
| UNets.HeadsShape | python/nets/unet.py:268-275 | outconv heads that read the body's channels map it to their class counts at the same H and W, one map per head in list order |
| UNets.ForwardShape | python/nets/unet.py:248-277 | a well-wired network accepts exactly the inputs with its input channel count and positive H, W divisible by 2^(stages); each head then yields its class count × H × W |
| UNets.UnetWiring | python/nets/unet.py:142-172 | Unet is well wired: channel counts chain from conv_init through the six downconvs and six upconvs to the outconv |
| UNets.Unet2Wiring | python/nets/unet.py:208-244 | Unet2 is well wired with six stages; conv_up1..6 get skip tensors of 40, 32, 24, 16, 8, 8 channels; the body yields 8 channels to every head |
| UNets.NetworksConstruct | python/nets/unet.py:142-291 | Unet, Unet2 and InstSegNet construct for every argument: every block's dropout rate is 0 or 0.2 |
| UNets.UnetForward | python/nets/unet.py:174-194 | Unet accepts an input exactly when it has n_channels channels and H, W are positive multiples of 64; the output is n_classes × H × W |
| UNets.Unet2Forward | python/nets/unet.py:197-277 | Unet2 accepts an input exactly when it has n_channels channels and H, W are positive multiples of 64; a list of class counts gives one map per entry, in order, with the i-th entry's channels; a scalar gives one map |
| UNets.InstSegForwardShape | python/nets/unet.py:280-301 | InstSegNet's outconv(8, n_features) reads the 8-channel Unet body output; the result is n_features × H × W for exactly the inputs the body accepts |
| TrainNames.NatToString | python/main.py:44-48 | str() of a non-negative int is a non-empty digit string without a leading zero, one character long exactly for values up to 9 |
| TrainNames.ParseNatToString | python/main.py:48 | reading back str(n) gives n |
| TrainNames.Pad2 | python/main.py:44-47 | a time field gets a leading '0' exactly when it is at most 9; fields below 100 take two characters and read back to their value |
| TrainNames.TrainNameRoundTrip | python/main.py:34-50 | for a four-digit year and fields below 100, the run name YYYYMMDD_hhmm_name gives back the clock and the network name |
| TrainNames.WeightsPath | python/main.py:217 | the checkpoint path is '../weights/' + run name + '_weights.pth.tar', and the run name can be read back from it |
| TrainNames.LogDir | python/main.py:204 | the log directory is '../logs/' + run name + '/', and the run name can be read back from it |
| TrainNames.RunPathsInjective | python/main.py:204-217 | different run names never share a log directory or a checkpoint file |
| RunConfig.DatasetSetup | python/main.py:100-124 | 'ovarian' gives one input channel and any other dataset gives 3; per-head class counts come exactly with a target list of equal length starting with 3 and 'gt_mask'; a scalar count comes with target 'gt_mask'; lists arise only for 'ovarian' with multitask 'ovarian', 'follicle' or 'both' |
| RunConfig.MultitaskChoicesOnOvarian | python/main.py:101-118 | of the command-line choices, 'none' and 'ovary' give scalar 3, target 'gt_mask' and no suffix; 'follicle' gives [3,2] with targets ['gt_mask','follicle_edge'] and '_foll'; 'both' gives [3,2,2] with targets ['gt_mask','ovary_mask','follicle_edge'] and '_both' |
| RunConfig.OtherDatasetsIgnoreMultitask | python/main.py:119-124 | any dataset other than 'ovarian' gives 3 input channels, 22 classes, target 'gt_mask' and suffix '_voc2012', whatever the multitask value |
| RunConfig.NetworkInput | python/main.py:126-132 | input channels = dataset base + 1 if clahe + 1 if interaction; interaction prefixes 'i' to the already suffixed network name |
| RunConfig.NetworkInputBounds | python/main.py:126-132 | the input depth lies between the base and base + 2 and equals the base exactly when neither flag is on; the name starts with the network option, after an 'i' when interaction is on |
| RunConfig.SelectOptimizer | python/main.py:186-191 | only 'adamax' yields Adam, with lr 0.002; every other value yields SGD(lr 0.1, momentum 0.99, weight decay 0.0005) |
| RunConfig.OptimizerDiffersOnlyAtAdam | python/main.py:186-191 | the code agrees with the elif reading on every option except 'adam', whose Adam(lr 0.001) is always replaced |
| RunConfig.OptChoicesOnlyAdamax | python/main.py:70-191 | among the optimizer choices 'adam', 'adamax' and 'sgd' only 'adamax' gives Adam; the default 'adam' gives SGD(lr 0.1, momentum 0.99, weight decay 0.0005) |
| RunConfig.SelectLoss | python/main.py:194-201 | 'dsc'/'dice' give Dice, 'wdice'/'weighted_dice' WeightedDice, 'discriminative'/'dlf' Discriminative with 2 features, and exactly every other string CrossEntropy |
| RunConfig.LossChoicesDistinct | python/main.py:73-75 | the four loss choices select four different losses; the default 'dsc' selects Dice |
| RunConfig.SelectNetwork | python/main.py:148-158 | 'deeplab_v3' gives DeepLab, 'gcn' FCN_GCN, 'bgcn'/'balancedgcn' BalancedGCN, 'ugcn' UGCN, and exactly every other string Unet2 |
| RunConfig.NetChoicesNeverSelectDeepLab | python/main.py:57-59 | no command-line network choice selects DeepLab; 'deeplab_v3+', 'unet' and 'unet2' select Unet2 |
| RunConfig.CallUnet2 | python/nets/unet.py:201 | calling Unet2 succeeds exactly with the keywords n_channels and n_classes, building the Unet2 network; an unknown keyword is reported by name |
| RunConfig.BuildModelFailsOnUnet2 | python/main.py:147-158 | construction fails exactly on the Unet2 branch, always with the unexpected keyword 'bilinear' |
| RunConfig.ConfigureSucceedsOnlyWithoutUnet2 | python/main.py:145-217 | a run gets past network construction exactly when the network option does not select Unet2; among the choices only 'gcn', 'bgcn' and 'ugcn'; never with the defaults; the checkpoint path carries the run name |
| Samples.ChannelZero | train.py:54-62 | an array of more than two dimensions becomes its channel-0 plane of the same H and W; a 2-D array passes unchanged; indexing an array with no channels fails |
| Samples.ThresholdsMatchClasses | train.py:67-82 | the three masks set channel k of a pixel exactly when k is its class by the integer cuts: background below 64, ovary from 64 to 191, follicle above 191 |
| Samples.ClassifyMonotone | train.py:68-82 | the class is non-decreasing in the gray level: background, then ovary, then follicle |
| Samples.EncodeMask | train.py:67-84 | the (H, W, 3) mask after division by 255 holds, at every pixel, the one-hot triple of that pixel's class |
| Samples.MaskIsOneHot | train.py:70-84 | every pixel's three channels are each 0 or 1 and sum to 1, the set channel being the pixel's class |
| Samples.Reshape | train.py:85 | the reshape keeps the row-major element sequence and the element count, and fails when the requested dimensions hold a different count |
| Samples.ReshapeIsNotTranspose | train.py:85 | for the 1x2 ground truth [128, 0], channel 1 of pixel (0,0) is set in the (H, W, 3) mask, yet element (1,0,0) of the reshaped (3, H, W) tensor is 0 |
| Samples.GetItem | train.py:42-95 | a sample is produced exactly when neither array has an empty channel axis; the image and the gray mask are the channel-0 planes of the decoded image and ground truth; the multi mask is 3 × H × W and holds the one-hot encoding of that ground-truth plane |
| Samples.SelectGroundTruth | train.py:130-133 | the gray mask is used exactly when the criterion is cross-entropy, the multi mask otherwise |
| Samples.TrainNetPredictionShape | train.py:125-172 | taking train_net's Unet to be the Unet of python/nets/unet.py, Unet(1, 3) accepts a sample's image exactly when H and W are positive multiples of 64, and then predicts exactly the shape of the reshaped mask |

## Left out

- Layer numerics are not modelled: weights, BatchNorm statistics, Dropout2d randomness, ReLU values and `Softmax2d` normalisation are floating-point framework internals. Only shapes and channel counts are modelled. Softmax2d keeps the shape, so it is omitted from the output path.
- The batch axis is not modelled: no layer here changes it. In training mode `BatchNorm2d` also refuses a batch that holds a single value per channel; the model has no batch size and does not state that refusal.
- Autograd, `loss.backward()`, optimizer steps, loss values and the body of the training loop are opaque framework calls. So are the prints and `torchvision.utils.save_image`.
- File and device I/O are side effects: `os.listdir`, `Image.open`, `Logger`, `DataLoader` shuffling and batching, CUDA device selection, and the dataset directory strings (python/main.py:171-183).
- `argparse` is not modelled; the parsed values are the `Args` record. One consequence: `type=bool` turns any non-empty string into True, and that parsing step is not modelled.
- `time.gmtime` is not modelled; the clock fields are an input.
- DeepLab, the GCN variants and the losses are opaque tags with the arguments they receive. `Training`, `Inference`, the transforms, `OvaryDataset` and `VOC2012Dataset` are not modelled. The value `[1., 0.5]` that `interaction` takes on is passed only to those datasets and is not modelled.
- The `gt/255` division of the gray mask is a float rescaling, so the gray mask is kept as the reduced ground truth.
- The optional transform in `__getitem__` (train.py:91-92) is an opaque collaborator, and `train_net` builds the dataset without one.
- Arrays of more than three dimensions are not modelled in the channel reduction: the decoded images are 2-D or 3-D.
- ConvTranspose2d and bilinear Upsample refuse an input with zero height or width in this model. No network can produce such an input after its first convolution, because a 3x3 convolution with padding 1 already refuses empty inputs.
- TrainNames.TrainNameRoundTrip: stated only for four-digit years and fields below 100. Those are the values `time.gmtime` yields in practice; the run name has no fixed layout otherwise.
- UNets.ForwardShape: acceptance is stated for evaluation mode, or for batches with more than one value per channel at every `BatchNorm2d`. In training mode, a one-sample batch whose deepest stage is 1x1 (a 64x64 input to `Unet` or `Unet2`) is refused by the batch norm after `conv_down6`, while the model accepts it.
- UNets.UnetForward: accepts a one-sample 64x64 training batch that `BatchNorm2d` would refuse; see UNets.ForwardShape.
- UNets.Unet2Forward: accepts a one-sample 64x64 training batch that `BatchNorm2d` would refuse; see UNets.ForwardShape.
- UNets.InstSegForwardShape: its Unet body accepts a one-sample 64x64 training batch that `BatchNorm2d` would refuse; see UNets.ForwardShape.
- Samples.TrainNetPredictionShape: assumes that the `Unet` train.py imports from a top-level `unet` module is the `Unet` of python/nets/unet.py; that module is not part of this model. Its acceptance of 64x64 images is also stated for evaluation mode; `train_net` trains with `net.train()` and its DataLoader keeps a last batch that may hold one sample.
- RunConfig.ConfigureSucceedsOnlyWithoutUnet2: assumes that `DeepLabv3_plus`, `FCN_GCN`, `BalancedGCN` and `UGCN` accept the keywords python/main.py:149-156 passes them (`UGCN` also receives `bilinear=`). Their source is not part of this model, so "succeeds exactly when Unet2 is not selected" holds only under that assumption.
- RunConfig.BuildModelFailsOnUnet2: the same assumption about the other networks' constructors; the failure on the Unet2 branch does not depend on it.

=== FILE: arith.dfy ===
/** Integer facts behind the spatial arithmetic of the networks. */
module Arith {

  /** 2 to the power n. */
  function Pow2(n: nat): (r: nat)
    ensures r >= 1
    ensures n >= 1 ==> r % 2 == 0
  {
    if n == 0 then 1 else 2 * Pow2(n - 1)
  }

  /** The ceiling of n / 2. */
  function CeilHalf(n: nat): (r: nat)
    ensures 2 * r - 1 <= n <= 2 * r
  {
    (n + 1) / 2
  }

  /** A positive length has a positive half, and doubling the half gives the
      length back exactly when the length is even. */
  lemma EvenHalf(n: nat)
    requires n >= 1
    ensures CeilHalf(n) >= 1
    ensures 2 * CeilHalf(n) == n <==> n % 2 == 0
  {
  }

  /** Euclidean quotient and remainder are determined by any decomposition
      x == d * q + r with 0 <= r < d. */
  lemma DivModUnique(x: int, d: int, q: int, r: int)
    requires d > 0 && 0 <= r < d && x == d * q + r
    ensures x / d == q && x % d == r
  {
    var q', r' := x / d, x % d;
    assert x == d * q' + r';
    assert d * (q - q') == r' - r;
    if q > q' {
      MulAtLeast(d, q - q');
      assert false;
    } else if q < q' {
      MulAtLeast(d, q' - q);
      assert false;
    }
  }

  /** A positive multiple of d is at least d. */
  lemma MulAtLeast(d: int, t: int)
    requires d > 0 && t >= 1
    ensures d * t >= d
  {
  }

  /** Doubling both operands doubles the remainder. */
  lemma DoubleMod(q: nat, p: nat)
    requires p >= 1
    ensures (2 * q) % (2 * p) == 2 * (q % p)
  {
    var a, r := q / p, q % p;
    assert 2 * q == (2 * p) * a + 2 * r;
    DivModUnique(2 * q, 2 * p, a, 2 * r);
  }

  /** A positive h is a multiple of 2^(m+1) exactly when it is even and its
      rounded-up half is a multiple of 2^m. */
  lemma {:induction false} HalvingDivisible(h: nat, m: nat)
    requires h >= 1
    ensures h % Pow2(m + 1) == 0 <==> h % 2 == 0 && CeilHalf(h) % Pow2(m) == 0
  {
    var p := Pow2(m);
    assert Pow2(m + 1) == 2 * p;
    if h % 2 == 0 {
      assert CeilHalf(h) * 2 == h;
      DoubleMod(CeilHalf(h), p);
    } else if h % (2 * p) == 0 {
      var a := h / (2 * p);
      assert h == 2 * (p * a);
      DivModUnique(h, 2, p * a, 0);
      assert false;
    }
  }

  /** h is positive and can be halved, rounding up, m times with no odd
      length on the way: what m stride-2 convolutions need so that m
      doublings give h back. */
  predicate Halves(h: nat, m: nat)
    decreases m
  {
    h >= 1 && (m == 0 || (h % 2 == 0 && Halves(CeilHalf(h), m - 1)))
  }

  /** Halving evenly m times is divisibility by 2^m. */
  lemma {:induction false} HalvesPow2(h: nat, m: nat)
    ensures Halves(h, m) <==> h >= 1 && h % Pow2(m) == 0
    decreases m
  {
    if m == 0 {
      assert Pow2(0) == 1;
    } else if h >= 1 {
      EvenHalf(h);
      HalvesPow2(CeilHalf(h), m - 1);
      HalvingDivisible(h, m - 1);
    }
  }

  /** Scaling a strict bound by a positive factor keeps it strict. */
  lemma MulLess(p: nat, n: nat, c: nat)
    requires p < n && c > 0
    ensures p * c + c <= n * c
  {
    assert (n - p) * c >= c by { MulAtLeast(c, n - p); }
  }
}

=== FILE: blocks.dfy ===
/** The building blocks of python/nets/unet.py: inconv, fwdconv, downconv and
    outconv (one convolution with optional normalisation and dropout, then
    ReLU), and upconv (upsampling, skip concatenation, two fwdconv). A block
    keeps the arguments it was constructed with; its nn.Sequential is the
    computed layer list. */
module Blocks {
  import opened Results
  import opened Arith
  import opened Layers

  datatype ConvKind = In | Fwd | Down | Out

  /** Kernel size of the block's convolution: 1 for outconv, 3 otherwise. */
  function Kernel(kind: ConvKind): Pos {
    if kind == Out then 1 else 3
  }

  /** Stride of the block's convolution: 2 for downconv, 1 otherwise. */
  function Stride(kind: ConvKind): Pos {
    if kind == Down then 2 else 1
  }

  /** Padding of the block's convolution: 0 for outconv, 1 otherwise. */
  function Padding(kind: ConvKind): nat {
    if kind == Out then 0 else 1
  }

  /** A single-convolution block and the arguments it was built from. */
  datatype ConvBlock = ConvBlock(kind: ConvKind, inCh: nat, outCh: nat, batchNorm: bool, dropout: real)

  function Inconv(inCh: nat, outCh: nat, batchNorm: bool := true, dropout: real := 0.0): ConvBlock {
    ConvBlock(In, inCh, outCh, batchNorm, dropout)
  }

  function Fwdconv(inCh: nat, outCh: nat, batchNorm: bool := true, dropout: real := 0.0): ConvBlock {
    ConvBlock(Fwd, inCh, outCh, batchNorm, dropout)
  }

  function Downconv(inCh: nat, outCh: nat, batchNorm: bool := true, dropout: real := 0.0): ConvBlock {
    ConvBlock(Down, inCh, outCh, batchNorm, dropout)
  }

  function Outconv(inCh: nat, outCh: nat, batchNorm: bool := true, dropout: real := 0.0): ConvBlock {
    ConvBlock(Out, inCh, outCh, batchNorm, dropout)
  }

  /** The block's nn.Sequential: the convolution first, a BatchNorm2d exactly
      when batch normalisation is asked for, a Dropout2d exactly when the rate
      is positive (after the normalisation), and a ReLU last. */
  function Sequential(b: ConvBlock): (r: seq<Layer>)
    ensures |r| == 2 + (if b.batchNorm then 1 else 0) + (if b.dropout > 0.0 then 1 else 0)
    ensures r[0] == Conv2d(b.inCh, b.outCh, Kernel(b.kind), Stride(b.kind), Padding(b.kind))
    ensures b.batchNorm ==> r[1] == BatchNorm2d(b.outCh)
    ensures b.dropout > 0.0 ==> r[|r| - 2] == Dropout2d(b.dropout)
    ensures r[|r| - 1] == ReLU
    ensures forall i :: 1 <= i < |r| ==> Preserves(r[i], b.outCh)
  {
    [Conv2d(b.inCh, b.outCh, Kernel(b.kind), Stride(b.kind), Padding(b.kind))]
    + (if b.batchNorm then [BatchNorm2d(b.outCh)] else [])
    + (if b.dropout > 0.0 then [Dropout2d(b.dropout)] else [])
    + [ReLU]
  }

  /** Why a block cannot be constructed: nn.Dropout2d refuses a rate
      outside [0, 1]. */
  datatype BuildError = DropoutOutOfRange(rate: real)

  /** Constructing a single-convolution block. A rate of 0 or below adds no
      Dropout2d, so only a rate above 1 reaches the Dropout2d range check,
      and the construction then fails with that rate. */
  function BuildBlock(b: ConvBlock): (r: Result<seq<Layer>, BuildError>)
    ensures r.Success? <==> b.dropout <= 1.0
    ensures r.Failure? ==> r.error == DropoutOutOfRange(b.dropout)
    ensures r.Success? ==> r.value == Sequential(b)
  {
    if b.dropout > 0.0 then
      if b.dropout <= 1.0 then Success(Sequential(b)) else Failure(DropoutOutOfRange(b.dropout))
    else
      Success(Sequential(b))
  }

  /** Shape of a block's output: the convolution size rule with the block's
      kernel, stride and padding, and the declared output channels. */
  function BlockForward(b: ConvBlock, x: Shape): (r: Result<Shape, ShapeError>)
    ensures r.Success? <==>
      x.ch == b.inCh && Kernel(b.kind) <= x.h + 2 * Padding(b.kind) && Kernel(b.kind) <= x.w + 2 * Padding(b.kind)
    ensures r.Success? ==>
      r.value == Shape(b.outCh,
                       ConvOut(x.h, Kernel(b.kind), Stride(b.kind), Padding(b.kind)),
                       ConvOut(x.w, Kernel(b.kind), Stride(b.kind), Padding(b.kind)))
  {
    ConvDecides(b, x);
    ApplySeq(Sequential(b), x)
  }

  /** Only the block's convolution can refuse an input or change its shape:
      the normalisation, dropout and activation after it keep the shape. */
  lemma ConvDecides(b: ConvBlock, x: Shape)
    ensures ApplySeq(Sequential(b), x) == Apply(Sequential(b)[0], x)
  {
    var ls := Sequential(b);
    assert ApplySeq(ls, x) == match Apply(ls[0], x) case Success(y) => ApplySeq(ls[1..], y) case Failure(e) => Failure(e);
    if Apply(ls[0], x).Success? {
      PreservingLayers(ls[1..], Apply(ls[0], x).value);
    }
  }

  /** inconv, fwdconv and outconv keep height and width and map the channels
      from the declared input count to the declared output count. */
  lemma SameSizeBlock(b: ConvBlock, x: Shape)
    requires b.kind != Down
    ensures BlockForward(b, x).Success? <==> x.ch == b.inCh && x.h >= 1 && x.w >= 1
    ensures BlockForward(b, x).Success? ==> BlockForward(b, x).value == Shape(b.outCh, x.h, x.w)
  {
  }

  /** downconv rounds height and width up to half and maps the channels from
      the declared input count to the declared output count. */
  lemma DownBlock(b: ConvBlock, x: Shape)
    requires b.kind == Down
    ensures BlockForward(b, x).Success? <==> x.ch == b.inCh && x.h >= 1 && x.w >= 1
    ensures BlockForward(b, x).Success? ==> BlockForward(b, x).value == Shape(b.outCh, CeilHalf(x.h), CeilHalf(x.w))
  {
  }

  /** An upconv block and the arguments it was built from. */
  datatype UpConv = UpConv(inCh: nat, outCh: nat, resCh: nat, bilinear: bool, batchNorm: bool, dropout: real)

  function Upconv(inCh: nat, outCh: nat, resCh: nat := 0, bilinear: bool := false,
                  batchNorm: bool := true, dropout: real := 0.0): UpConv {
    UpConv(inCh, outCh, resCh, bilinear, batchNorm, dropout)
  }

  /** The upsampling step: fixed bilinear interpolation by 2, or a learned
      2x2 transposed convolution with stride 2 that keeps the channel count. */
  function UpLayer(u: UpConv): Layer {
    if u.bilinear then Upsample(2) else ConvTranspose2d(u.inCh, u.inCh, 2, 2)
  }

  /** The two fusing blocks of an upconv. The first takes the concatenated
      channels; both are built with normalisation and without dropout,
      whatever the upconv itself was given. */
  function FuseBlocks(u: UpConv): (r: seq<ConvBlock>)
    ensures |r| == 2
    ensures r[0].kind == Fwd && r[0].inCh == u.inCh + u.resCh && r[0].outCh == u.outCh
    ensures r[1].kind == Fwd && r[1].inCh == u.outCh && r[1].outCh == u.outCh
    ensures forall i :: 0 <= i < 2 ==> r[i].batchNorm && r[i].dropout == 0.0
  {
    [Fwdconv(u.inCh + u.resCh, u.outCh, batchNorm := true, dropout := 0.0), Fwdconv(u.outCh, u.outCh)]
  }

  /** An upconv's fusing blocks always construct, whatever dropout rate the
      upconv itself was given. */
  lemma UpconvBuilds(u: UpConv)
    ensures forall i :: 0 <= i < 2 ==> BuildBlock(FuseBlocks(u)[i]) == Success(Sequential(FuseBlocks(u)[i]))
  {
  }

  /** upconv never passes its own normalisation or dropout arguments on. */
  lemma FuseIgnoresRegularisation(u: UpConv, batchNorm: bool, dropout: real)
    ensures FuseBlocks(u.(batchNorm := batchNorm, dropout := dropout)) == FuseBlocks(u)
  {
  }

  /** The upsampled tensor, concatenated with the skip tensor when there is one. */
  function WithSkip(up: Shape, skip: Option<Shape>): Result<Shape, ShapeError> {
    match skip
    case None => Success(up)
    case Some(s) => Concat(up, s)
  }

  /** Shape of an upconv's output for input x and optional skip tensor. */
  function UpForward(u: UpConv, x: Shape, skip: Option<Shape>): Result<Shape, ShapeError> {
    var up :- Apply(UpLayer(u), x);
    var cat :- WithSkip(up, skip);
    var fused :- BlockForward(FuseBlocks(u)[0], cat);
    BlockForward(FuseBlocks(u)[1], fused)
  }

  /** The channel condition an upconv puts on its two inputs: after a
      transposed convolution, the input must have the declared in_ch and the
      skip tensor res_ch channels; bilinear upsampling keeps whatever channels
      arrive, so only their sum is checked by the first fusing block. */
  predicate UpChannelsFit(u: UpConv, c: nat, skipCh: nat) {
    if u.bilinear then c + skipCh == u.inCh + u.resCh
    else c == u.inCh && skipCh == u.resCh
  }

  /** An upconv doubles height and width in both upsampling modes; the skip
      concatenation is accepted exactly when the skip tensor has the doubled
      size, and the result has out_ch channels. */
  lemma UpForwardShape(u: UpConv, x: Shape, s: Shape)
    ensures UpForward(u, x, Some(s)).Success? <==>
      x.h >= 1 && x.w >= 1 && s.h == 2 * x.h && s.w == 2 * x.w && UpChannelsFit(u, x.ch, s.ch)
    ensures UpForward(u, x, Some(s)).Success? ==> UpForward(u, x, Some(s)).value == Shape(u.outCh, 2 * x.h, 2 * x.w)
  {
    var blocks := FuseBlocks(u);
    if x.h >= 1 && x.w >= 1 && (u.bilinear || x.ch == u.inCh) {
      var up := Apply(UpLayer(u), x).value;
      assert up == Shape(if u.bilinear then x.ch else u.inCh, 2 * x.h, 2 * x.w);
      if s.h == 2 * x.h && s.w == 2 * x.w {
        var cat := Shape(up.ch + s.ch, 2 * x.h, 2 * x.w);
        assert WithSkip(up, Some(s)) == Success(cat);
        SameSizeBlock(blocks[0], cat);
        if cat.ch == blocks[0].inCh {
          SameSizeBlock(blocks[1], Shape(u.outCh, cat.h, cat.w));
        }
      }
    }
  }

  /** Without a skip tensor an upconv only upsamples and fuses. */
  lemma UpForwardNoSkip(u: UpConv, x: Shape)
    ensures UpForward(u, x, None).Success? <==>
      x.h >= 1 && x.w >= 1 && UpChannelsFit(u, x.ch, 0)
    ensures UpForward(u, x, None).Success? ==> UpForward(u, x, None).value == Shape(u.outCh, 2 * x.h, 2 * x.w)
  {
    var blocks := FuseBlocks(u);
    if x.h >= 1 && x.w >= 1 && (u.bilinear || x.ch == u.inCh) {
      var up := Apply(UpLayer(u), x).value;
      assert up == Shape(if u.bilinear then x.ch else u.inCh, 2 * x.h, 2 * x.w);
      SameSizeBlock(blocks[0], up);
      if up.ch == blocks[0].inCh {
        SameSizeBlock(blocks[1], Shape(u.outCh, up.h, up.w));
      }
    }
  }
}

=== FILE: layers.dfy ===
/** Tensor shapes and the shape behaviour of the framework layers the
    networks are built from. A tensor of a batch is abstracted to its
    (channels, height, width); the batch axis is never changed by a layer. */
module Layers {
  import opened Results
  import opened Arith

  type Pos = n: nat | n >= 1 witness 1

  datatype Shape = Shape(ch: nat, h: nat, w: nat)

  /** The layers used by the U-Net modules, with their shape-relevant arguments. */
  datatype Layer =
    | Conv2d(inCh: nat, outCh: nat, kernel: Pos, stride: Pos, padding: nat)
    | ConvTranspose2d(inCh: nat, outCh: nat, kernel: Pos, stride: Pos)
    | BatchNorm2d(features: nat)
    | Dropout2d(p: real)
    | ReLU
    | Upsample(scale: Pos)

  /** Why a layer refuses an input. */
  datatype ShapeError =
    | ChannelMismatch(expected: nat, got: nat)
    | KernelLargerThanInput(padded: nat, kernel: nat)
    | EmptyInput
    | ConcatMismatch(left: Shape, right: Shape)

  /** Output length of a convolution along one axis (dilation 1): the number
      of positions at which the kernel fits in the padded input. */
  function ConvOut(size: nat, kernel: Pos, stride: Pos, padding: nat): (r: nat)
    requires kernel <= size + 2 * padding
    ensures r >= 1
  {
    (size + 2 * padding - kernel) / stride + 1
  }

  /** The kernel's last placement fits in the padded input and one more
      stride would not. */
  lemma ConvOutPlacements(size: nat, kernel: Pos, stride: Pos, padding: nat)
    requires kernel <= size + 2 * padding
    ensures var r := ConvOut(size, kernel, stride, padding);
      (r - 1) * stride + kernel <= size + 2 * padding < r * stride + kernel
  {
  }

  /** Output length of a transposed convolution along one axis
      (padding 0, output padding 0, dilation 1). */
  function TransposedOut(size: nat, kernel: Pos, stride: Pos): nat
    requires size >= 1
  {
    (size - 1) * stride + kernel
  }

  /** A transposed convolution is undone in size by the convolution with the
      same kernel and stride and no padding. */
  lemma TransposedOutInverse(size: nat, kernel: Pos, stride: Pos)
    requires size >= 1
    ensures ConvOut(TransposedOut(size, kernel, stride), kernel, stride, 0) == size
  {
    DivModUnique((size - 1) * stride, stride, size - 1, 0);
  }

  /** Shape of a layer's output, or the reason the framework rejects the input. */
  function Apply(l: Layer, x: Shape): (r: Result<Shape, ShapeError>)
    ensures (l.Dropout2d? || l.ReLU?) ==> r == Success(x)
    ensures l.BatchNorm2d? ==> (r.Success? <==> x.ch == l.features)
    ensures l.BatchNorm2d? && r.Success? ==> r.value == x
    ensures (l.Conv2d? || l.ConvTranspose2d?) && r.Success? ==> x.ch == l.inCh && r.value.ch == l.outCh
    ensures l.Upsample? && r.Success? ==> r.value.ch == x.ch
  {
    match l
    case Conv2d(i, o, k, s, p) =>
      if x.ch != i then Failure(ChannelMismatch(i, x.ch))
      else if x.h + 2 * p < k then Failure(KernelLargerThanInput(x.h + 2 * p, k))
      else if x.w + 2 * p < k then Failure(KernelLargerThanInput(x.w + 2 * p, k))
      else Success(Shape(o, ConvOut(x.h, k, s, p), ConvOut(x.w, k, s, p)))
    case ConvTranspose2d(i, o, k, s) =>
      if x.ch != i then Failure(ChannelMismatch(i, x.ch))
      else if x.h == 0 || x.w == 0 then Failure(EmptyInput)
      else Success(Shape(o, TransposedOut(x.h, k, s), TransposedOut(x.w, k, s)))
    case BatchNorm2d(f) =>
      if x.ch != f then Failure(ChannelMismatch(f, x.ch)) else Success(x)
    case Dropout2d(_) => Success(x)
    case ReLU => Success(x)
    case Upsample(f) =>
      if x.h == 0 || x.w == 0 then Failure(EmptyInput)
      else Success(Shape(x.ch, x.h * f, x.w * f))
  }

  /** Runs a layer list in order, as an nn.Sequential does. */
  function ApplySeq(ls: seq<Layer>, x: Shape): Result<Shape, ShapeError>
    decreases |ls|
  {
    if |ls| == 0 then Success(x)
    else
      var y :- Apply(ls[0], x);
      ApplySeq(ls[1..], y)
  }

  /** A layer that leaves a tensor of c channels untouched. */
  predicate Preserves(l: Layer, c: nat) {
    l == BatchNorm2d(c) || l.Dropout2d? || l == ReLU
  }

  /** Normalisation, dropout and activation layers over the right channel
      count leave the shape as it is. */
  lemma {:induction false} PreservingLayers(ls: seq<Layer>, x: Shape)
    requires forall i :: 0 <= i < |ls| ==> Preserves(ls[i], x.ch)
    ensures ApplySeq(ls, x) == Success(x)
    decreases |ls|
  {
    if |ls| > 0 {
      PreservingLayers(ls[1..], x);
    }
  }

  /** Channel-wise concatenation, as torch.cat along dimension 1: every other
      dimension must agree. */
  function Concat(a: Shape, b: Shape): (r: Result<Shape, ShapeError>)
    ensures r.Success? <==> a.h == b.h && a.w == b.w
    ensures r.Success? ==> r.value.ch == a.ch + b.ch && r.value.h == a.h && r.value.w == a.w
  {
    if a.h == b.h && a.w == b.w then Success(Shape(a.ch + b.ch, a.h, a.w))
    else Failure(ConcatMismatch(a, b))
  }
}

=== FILE: results.dfy ===
/** Failure-compatible wrappers used by every module of the model. */
module Results {

  /** An optional value. */
  datatype Option<T> = None | Some(value: T)

  /** Either a value or the error that prevented computing it; usable with `:-`. */
  datatype Result<T, E> = Success(value: T) | Failure(error: E) {

    predicate IsFailure() {
      Failure?
    }

    function PropagateFailure<U>(): Result<U, E>
      requires Failure?
    {
      Failure(error)
    }

    function Extract(): T
      requires Success?
    {
      value
    }
  }
}

=== FILE: run_config.dfy ===
/** The decision table of the training entry point (python/main.py): parsed
    arguments to network input and output, run name, network, optimizer and
    loss. Argument parsing itself is not modelled; the parsed values form the
    Args record. The string tests are modelled exactly as written, including
    those that no command-line choice can reach. */
module RunConfig {
  import opened Results
  import opened UNets
  import opened TrainNames

  /** The parsed command line. */
  datatype Args = Args(net: string, epochs: int, batchSize: int, dataset: string, multitask: string,
                       opt: string, loss: string, clahe: bool, interaction: bool, bilinear: bool)

  /** The values the parser yields when no option is given. The default loss
      'dsc' is not among the loss choices; defaults are not checked against them. */
  function DefaultArgs(): Args {
    Args("unet2", 1, 4, "ovarian", "none", "adam", "dsc", false, false, false)
  }

  const NetChoices: seq<string> := ["deeplab_v3+", "gcn", "bgcn", "ugcn", "unet", "unet2"]
  const MultitaskChoices: seq<string> := ["none", "ovary", "follicle", "both"]
  const OptChoices: seq<string> := ["adam", "adamax", "sgd"]
  const LossChoices: seq<string> := ["dice", "wdice", "discriminative", "crossentropy"]

  /** Which ground-truth field(s) the training pairs with the output(s). */
  datatype Target = OneTarget(name: string) | TargetList(names: seq<string>)

  /** What the dataset and multitask options fix before the feature flags. */
  datatype DataSetup = DataSetup(inChannels: nat, nClasses: Classes, target: Target, suffix: string)

  /** Dataset and multitask selection. Only the ovarian dataset reads the
      multitask option, and it tests for 'ovarian' where the command line
      offers 'ovary', so 'ovary' takes the single-task branch. */
  function DatasetSetup(dataset: string, multitask: string): (s: DataSetup)
    ensures s.inChannels == (if dataset == "ovarian" then 1 else 3)
    ensures s.nClasses.PerHead? <==> s.target.TargetList?
    ensures s.nClasses.PerHead? ==>
      |s.nClasses.counts| == |s.target.names| >= 2
      && s.nClasses.counts[0] == 3 && s.target.names[0] == "gt_mask"
    ensures s.nClasses.Scalar? ==> s.target == OneTarget("gt_mask")
    ensures s.nClasses.PerHead? ==> dataset == "ovarian" && multitask in {"ovarian", "follicle", "both"}
  {
    if dataset == "ovarian" then
      if multitask == "ovarian" then
        DataSetup(1, PerHead([3, 2]), TargetList(["gt_mask", "ovary_mask"]), "_ovar")
      else if multitask == "follicle" then
        DataSetup(1, PerHead([3, 2]), TargetList(["gt_mask", "follicle_edge"]), "_foll")
      else if multitask == "both" then
        DataSetup(1, PerHead([3, 2, 2]), TargetList(["gt_mask", "ovary_mask", "follicle_edge"]), "_both")
      else
        DataSetup(1, Scalar(3), OneTarget("gt_mask"), "")
    else
      DataSetup(3, Scalar(22), OneTarget("gt_mask"), "_voc2012")
  }

  /** What every command-line multitask choice yields on the ovarian dataset:
      'none' and 'ovary' give the three-class single task, 'follicle' two
      heads and 'both' three, each head paired with its ground-truth field. */
  lemma MultitaskChoicesOnOvarian(multitask: string)
    requires multitask in MultitaskChoices
    ensures DatasetSetup("ovarian", multitask).nClasses ==
      if multitask == "follicle" then PerHead([3, 2])
      else if multitask == "both" then PerHead([3, 2, 2])
      else Scalar(3)
    ensures DatasetSetup("ovarian", multitask).target ==
      if multitask == "follicle" then TargetList(["gt_mask", "follicle_edge"])
      else if multitask == "both" then TargetList(["gt_mask", "ovary_mask", "follicle_edge"])
      else OneTarget("gt_mask")
    ensures DatasetSetup("ovarian", multitask).suffix ==
      if multitask == "follicle" then "_foll" else if multitask == "both" then "_both" else ""
  {
  }

  /** Any dataset other than 'ovarian' ignores the multitask option. */
  lemma OtherDatasetsIgnoreMultitask(dataset: string, m1: string, m2: string)
    requires dataset != "ovarian"
    ensures DatasetSetup(dataset, m1) == DatasetSetup(dataset, m2)
            == DataSetup(3, Scalar(22), OneTarget("gt_mask"), "_voc2012")
  {
  }

  /** Network input depth, output classes, target and name. */
  datatype NetInput = NetInput(inChannels: nat, nClasses: Classes, target: Target, networkName: string)

  /** Applies the feature flags to the dataset setup: one more input channel
      for the equalised image and one for the interaction map, which also
      prefixes 'i' to the already suffixed network name. */
  function NetworkInput(args: Args): (r: NetInput)
    ensures var base := DatasetSetup(args.dataset, args.multitask);
      && r.nClasses == base.nClasses && r.target == base.target
      && r.inChannels == base.inChannels + (if args.clahe then 1 else 0) + (if args.interaction then 1 else 0)
      && r.networkName == (if args.interaction then "i" else "") + args.net + base.suffix
  {
    var base := DatasetSetup(args.dataset, args.multitask);
    var inChannels := base.inChannels + (if args.clahe then 1 else 0);
    var name := args.net + base.suffix;
    if args.interaction then NetInput(inChannels + 1, base.nClasses, base.target, "i" + name)
    else NetInput(inChannels, base.nClasses, base.target, name)
  }

  /** The input depth lies between the dataset's depth and two more, and the
      network name starts with the network option unless interaction is on. */
  lemma NetworkInputBounds(args: Args)
    ensures var r := NetworkInput(args); var base := DatasetSetup(args.dataset, args.multitask).inChannels;
      base <= r.inChannels <= base + 2
      && (r.inChannels == base <==> !args.clahe && !args.interaction)
      && (args.interaction ==> r.networkName[..1] == "i" && r.networkName[1..|args.net| + 1] == args.net)
      && (!args.interaction ==> r.networkName[..|args.net|] == args.net)
  {
  }

  datatype Optimizer = Adam(lr: real) | Sgd(lr: real, momentum: real, weightDecay: real)

  /** The statement at lines 186-187: Adam with rate 0.001 for 'adam'. */
  function FirstAssignment(opt: string): Option<Optimizer> {
    if opt == "adam" then Some(Adam(0.001)) else None
  }

  /** The statement at lines 188-191: an if/else that assigns in both
      branches, so whatever the first statement assigned is replaced. */
  function SecondAssignment(opt: string, previous: Option<Optimizer>): Optimizer {
    if opt == "adamax" then Adam(0.002) else Sgd(0.1, 0.99, 0.0005)
  }

  /** The optimizer the two statements leave behind: only 'adamax' ends as
      Adam; every other value, 'adam' included, ends as SGD. */
  function SelectOptimizer(opt: string): (o: Optimizer)
    ensures o.Adam? <==> opt == "adamax"
    ensures o.Adam? ==> o.lr == 0.002
    ensures o.Sgd? ==> o == Sgd(0.1, 0.99, 0.0005)
  {
    SecondAssignment(opt, FirstAssignment(opt))
  }

  /** The reading with `elif` on line 188. */
  function ElifOptimizer(opt: string): Optimizer {
    if opt == "adam" then Adam(0.001)
    else if opt == "adamax" then Adam(0.002)
    else Sgd(0.1, 0.99, 0.0005)
  }

  /** The code as written agrees with the `elif` reading on every option
      except 'adam', where the Adam optimizer it builds is discarded. */
  lemma OptimizerDiffersOnlyAtAdam(opt: string)
    ensures SelectOptimizer(opt) == ElifOptimizer(opt) <==> opt != "adam"
    ensures FirstAssignment(opt).Some? ==> SelectOptimizer(opt) != FirstAssignment(opt).value
  {
  }

  /** Of the command-line optimizer choices only 'adamax' trains with Adam,
      so the default 'adam' ends as SGD. */
  lemma OptChoicesOnlyAdamax()
    ensures forall opt :: opt in OptChoices ==> (SelectOptimizer(opt).Adam? <==> opt == "adamax")
    ensures SelectOptimizer(DefaultArgs().opt) == Sgd(0.1, 0.99, 0.0005)
  {
  }

  datatype LossKind = DiceLoss | WeightedDiceLoss | DiscriminativeLoss(nFeatures: nat) | CrossEntropyLoss

  /** Loss selection; a two-dimensional embedding for the discriminative
      loss; anything unrecognised falls back to cross-entropy. */
  function SelectLoss(loss: string): (r: LossKind)
    ensures r == DiceLoss <==> loss == "dsc" || loss == "dice"
    ensures r == WeightedDiceLoss <==> loss == "wdice" || loss == "weighted_dice"
    ensures r.DiscriminativeLoss? <==> loss == "discriminative" || loss == "dlf"
    ensures r.DiscriminativeLoss? ==> r.nFeatures == 2
    ensures r == CrossEntropyLoss <==> loss !in {"dsc", "dice", "wdice", "weighted_dice", "discriminative", "dlf"}
  {
    if loss == "dsc" || loss == "dice" then DiceLoss
    else if loss == "wdice" || loss == "weighted_dice" then WeightedDiceLoss
    else if loss == "discriminative" || loss == "dlf" then DiscriminativeLoss(2)
    else CrossEntropyLoss
  }

  /** The four loss choices select four different losses, and the default
      'dsc', though not a choice, selects Dice. */
  lemma LossChoicesDistinct(a: string, b: string)
    requires a in LossChoices && b in LossChoices && a != b
    ensures SelectLoss(a) != SelectLoss(b)
    ensures SelectLoss(DefaultArgs().loss) == DiceLoss
  {
  }

  datatype NetKind = DeepLabKind | FcnGcnKind | BalancedGcnKind | UgcnKind | Unet2Kind

  /** Network selection; the first test is for 'deeplab_v3', which the
      command line does not offer ('deeplab_v3+'), and everything else
      falls to Unet2. */
  function SelectNetwork(net: string): (k: NetKind)
    ensures k == DeepLabKind <==> net == "deeplab_v3"
    ensures k == FcnGcnKind <==> net == "gcn"
    ensures k == BalancedGcnKind <==> net == "bgcn" || net == "balancedgcn"
    ensures k == UgcnKind <==> net == "ugcn"
    ensures k == Unet2Kind <==> net !in {"deeplab_v3", "gcn", "bgcn", "balancedgcn", "ugcn"}
  {
    if net == "deeplab_v3" then DeepLabKind
    else if net == "gcn" then FcnGcnKind
    else if net == "bgcn" || net == "balancedgcn" then BalancedGcnKind
    else if net == "ugcn" then UgcnKind
    else Unet2Kind
  }

  /** No command-line network choice reaches DeepLab; 'deeplab_v3+', 'unet'
      and 'unet2' all select Unet2. */
  lemma NetChoicesNeverSelectDeepLab(net: string)
    requires net in NetChoices
    ensures SelectNetwork(net) != DeepLabKind
    ensures SelectNetwork(net) == Unet2Kind <==> net in {"deeplab_v3+", "unet", "unet2"}
  {
  }

  /** A constructed network. The classes other than Unet2 are outside this
      model and kept as tags with the arguments they receive. */
  datatype Model =
    | DeepLab(nInputChannels: nat, nClasses: Classes)
    | FcnGcn(nChannels: nat, nClasses: Classes)
    | BalancedGcn(nChannels: nat, nClasses: Classes)
    | Ugcn(nChannels: nat, nClasses: Classes, bilinear: bool)
    | Unet2Model(net: UNet)

  /** A call that does not match a constructor's parameter list. */
  datatype ConfigError = UnexpectedKeywords(names: set<string>) | MissingArguments(names: set<string>)

  /** The parameters of Unet2's constructor. */
  const Unet2Parameters: set<string> := {"n_channels", "n_classes"}

  /** Calling Unet2 with the given keyword names: an unknown keyword is
      reported first, then a missing one; otherwise the network is built. */
  function CallUnet2(keywords: set<string>, nChannels: nat, nClasses: Classes): (r: Result<Model, ConfigError>)
    ensures r.Success? <==> keywords == Unet2Parameters
    ensures r.Success? ==> r.value == Unet2Model(MakeUnet2(nChannels, nClasses))
    ensures r.Failure? && !(keywords <= Unet2Parameters) ==> r.error == UnexpectedKeywords(keywords - Unet2Parameters)
  {
    if !(keywords <= Unet2Parameters) then Failure(UnexpectedKeywords(keywords - Unet2Parameters))
    else if !(Unet2Parameters <= keywords) then Failure(MissingArguments(Unet2Parameters - keywords))
    else Success(Unet2Model(MakeUnet2(nChannels, nClasses)))
  }

  /** Network construction as dispatched at lines 148-158. The Unet2 branch
      passes bilinear=, which Unet2's constructor does not accept. */
  function BuildModel(net: string, inChannels: nat, nClasses: Classes, bilinear: bool): Result<Model, ConfigError> {
    match SelectNetwork(net)
    case DeepLabKind => Success(DeepLab(inChannels, nClasses))
    case FcnGcnKind => Success(FcnGcn(inChannels, nClasses))
    case BalancedGcnKind => Success(BalancedGcn(inChannels, nClasses))
    case UgcnKind => Success(Ugcn(inChannels, nClasses, bilinear))
    case Unet2Kind => CallUnet2({"n_channels", "n_classes", "bilinear"}, inChannels, nClasses)
  }

  /** Construction fails exactly on the Unet2 branch, always because of the
      bilinear keyword; without it the call would build the Unet2 network. */
  lemma BuildModelFailsOnUnet2(net: string, inChannels: nat, nClasses: Classes, bilinear: bool)
    ensures BuildModel(net, inChannels, nClasses, bilinear).Failure? <==> SelectNetwork(net) == Unet2Kind
    ensures BuildModel(net, inChannels, nClasses, bilinear).Failure? ==>
      BuildModel(net, inChannels, nClasses, bilinear).error == UnexpectedKeywords({"bilinear"})
    ensures CallUnet2({"n_channels", "n_classes"}, inChannels, nClasses) == Success(Unet2Model(MakeUnet2(inChannels, nClasses)))
  {
    assert {"n_channels", "n_classes", "bilinear"} - Unet2Parameters == {"bilinear"};
  }

  /** Everything the entry point decides before training starts. */
  datatype RunPlan = RunPlan(input: NetInput, trainName: string, model: Model, optimizer: Optimizer,
                             loss: LossKind, logDir: string, weightsPath: string, epochs: int, batchSize: int)

  /** The configuration steps of the entry point, in order, for the parsed
      arguments and the start time. */
  function Configure(args: Args, t: Clock): Result<RunPlan, ConfigError> {
    var input := NetworkInput(args);
    var trainName := TrainName(input.networkName, t);
    var model :- BuildModel(args.net, input.inChannels, input.nClasses, args.bilinear);
    Success(RunPlan(input, trainName, model, SelectOptimizer(args.opt), SelectLoss(args.loss),
                    LogDir(trainName), WeightsPath(trainName), args.epochs, args.batchSize))
  }

  /** A run gets past network construction exactly when the network option
      selects one of DeepLab and the GCN variants; of the command-line
      choices only 'gcn', 'bgcn' and 'ugcn' do, so the defaults never do.
      A run that does get there writes its checkpoint to the path named
      after its run name. */
  lemma ConfigureSucceedsOnlyWithoutUnet2(args: Args, t: Clock)
    ensures Configure(args, t).Success? <==> SelectNetwork(args.net) != Unet2Kind
    ensures args.net in NetChoices ==> (Configure(args, t).Success? <==> args.net in {"gcn", "bgcn", "ugcn"})
    ensures Configure(DefaultArgs(), t).Failure?
    ensures Configure(args, t).Success? ==>
      var plan := Configure(args, t).value;
      plan.weightsPath == WeightsPath(TrainName(NetworkInput(args).networkName, t))
      && plan.weightsPath[11..|plan.weightsPath| - 16] == plan.trainName
  {
    BuildModelFailsOnUnet2(args.net, NetworkInput(args).inChannels, NetworkInput(args).nClasses, args.bilinear);
    var d := DefaultArgs();
    BuildModelFailsOnUnet2(d.net, NetworkInput(d).inChannels, NetworkInput(d).nClasses, d.bilinear);
  }
}

=== FILE: samples.dfy ===
/** A training sample of the ultrasound dataset (train.py): the image and
    ground truth reduced to one channel, and the ground truth's gray levels
    thresholded into a three-channel one-hot mask. File access is not
    modelled; the decoded arrays are inputs. */
module Samples {
  import opened Results
  import opened Arith
  import opened Layers
  import opened UNets

  /** A decoded image as numpy holds it, row-major: a 2-D array, or a 3-D
      array with the channel axis last. Pixel values are the image's integer
      levels, which the float32 conversion keeps exactly. */
  datatype Raster = Plane(h: nat, w: nat, px: seq<int>) | Stack(h: nat, w: nat, c: nat, px: seq<int>)

  predicate Valid(r: Raster) {
    match r
    case Plane(h, w, px) => |px| == h * w
    case Stack(h, w, c, px) => |px| == h * w * c
  }

  datatype DataError = ChannelIndexOutOfRange | ReshapeSizeMismatch(size: nat, requested: nat)

  /** `a[:, :, 0]` for an array of more than two dimensions; a 2-D array is
      kept as it is. Indexing channel 0 of an array with no channels fails. */
  function ChannelZero(r: Raster): (res: Result<Raster, DataError>)
    requires Valid(r)
    ensures r.Plane? ==> res == Success(r)
    ensures r.Stack? ==> (res.Success? <==> r.c > 0)
    ensures res.Success? ==> res.value.Plane? && Valid(res.value) && res.value.h == r.h && res.value.w == r.w
    ensures r.Stack? && res.Success? ==>
      forall p :: 0 <= p < r.h * r.w ==> res.value.px[p] == r.px[p * r.c]
  {
    match r
    case Plane(_, _, _) => Success(r)
    case Stack(h, w, c, px) =>
      if c == 0 then Failure(ChannelIndexOutOfRange)
      else
        assert forall p :: 0 <= p < h * w ==> p * c < |px| by {
          forall p | 0 <= p < h * w ensures p * c < |px| {
            MulLess(p, h * w, c);
          }
        }
        Success(Plane(h, w, seq(h * w, p requires 0 <= p < h * w => px[p * c])))
  }

  /** The two gray-level thresholds: 128/2 and 255 - 128/2. */
  const T1: real := 128.0 / 2.0
  const T2: real := 255.0 - T1

  /** Membership of each of the three masks, as the three masked assignments
      test it: background below T1, ovary from T1 to T2, follicle above T2. */
  function ChannelBit(v: int, k: nat): bool
    requires k < 3
  {
    if k == 0 then (v as real) < T1
    else if k == 1 then T1 <= (v as real) && (v as real) <= T2
    else (v as real) > T2
  }

  /** The tissue classes the mask channels stand for. */
  datatype Tissue = Background | Ovary | Follicle

  /** Reference classification of a gray level by integer cut points. */
  function Classify(v: int): Tissue {
    if v < 64 then Background else if v <= 191 then Ovary else Follicle
  }

  function TissueIndex(t: Tissue): nat {
    match t
    case Background => 0
    case Ovary => 1
    case Follicle => 2
  }

  /** The one-hot channel triple of a class. */
  function OneHotOf(t: Tissue): (r: seq<real>)
    ensures |r| == 3 && r[TissueIndex(t)] == 1.0
    ensures forall c :: 0 <= c < 3 ==> (r[c] == 1.0 <==> c == TissueIndex(t)) && (r[c] == 0.0 || r[c] == 1.0)
    ensures r[0] + r[1] + r[2] == 1.0
  {
    match t
    case Background => [1.0, 0.0, 0.0]
    case Ovary => [0.0, 1.0, 0.0]
    case Follicle => [0.0, 0.0, 1.0]
  }

  /** The real-valued thresholds select exactly the class of the integer cut
      points: each gray level sets exactly one of the three masks. */
  lemma ThresholdsMatchClasses(v: int, k: nat)
    requires k < 3
    ensures ChannelBit(v, k) <==> k == TissueIndex(Classify(v))
  {
    assert T1 == 64.0 && T2 == 191.0;
  }

  /** The class is non-decreasing in the gray level: background, ovary,
      follicle. */
  lemma ClassifyMonotone(v: int, v': int)
    requires v <= v'
    ensures TissueIndex(Classify(v)) <= TissueIndex(Classify(v'))
  {
  }

  /** A row-major array of three dimensions. */
  datatype Array3 = Array3(d0: nat, d1: nat, d2: nat, data: seq<real>)

  /** Element (i, j, k) of a row-major array. */
  function At(a: Array3, i: nat, j: nat, k: nat): real
    requires i < a.d0 && j < a.d1 && k < a.d2 && |a.data| == a.d0 * a.d1 * a.d2
  {
    assert (i * a.d1 + j) * a.d2 + k < |a.data| by {
      MulLess(i, a.d0, a.d1);
      MulLess(i * a.d1 + j, a.d0 * a.d1, a.d2);
    }
    a.data[(i * a.d1 + j) * a.d2 + k]
  }

  /** The three channels of pixel p of an (H, W, 3) array. */
  function PixelChannels(m: Array3, p: nat): seq<real>
    requires 3 * p + 3 <= |m.data|
  {
    m.data[3 * p .. 3 * p + 3]
  }

  /** The (H, W, 3) mask after the three masked assignments (255 where the
      mask is set, 0 elsewhere) and the division by 255. */
  function EncodeMask(gt: Raster): (m: Array3)
    requires gt.Plane? && Valid(gt)
    ensures m.d0 == gt.h && m.d1 == gt.w && m.d2 == 3 && |m.data| == 3 * |gt.px|
    ensures forall p :: 0 <= p < |gt.px| ==> PixelChannels(m, p) == OneHotOf(Classify(gt.px[p]))
  {
    var n := |gt.px|;
    var raw := seq(3 * n, k requires 0 <= k < 3 * n => if ChannelBit(gt.px[k / 3], k % 3) then 255.0 else 0.0);
    var m := Array3(gt.h, gt.w, 3, seq(3 * n, k requires 0 <= k < 3 * n => raw[k] / 255.0));
    assert forall p :: 0 <= p < n ==> PixelChannels(m, p) == OneHotOf(Classify(gt.px[p])) by {
      forall p | 0 <= p < n ensures PixelChannels(m, p) == OneHotOf(Classify(gt.px[p])) {
        forall c | 0 <= c < 3 ensures PixelChannels(m, p)[c] == OneHotOf(Classify(gt.px[p]))[c] {
          assert (3 * p + c) / 3 == p && (3 * p + c) % 3 == c;
          ThresholdsMatchClasses(gt.px[p], c);
        }
      }
    }
    m
  }

  /** After the division by 255 every pixel's three channels are each 0 or 1
      and sum to 1, the set channel being the pixel's class. */
  lemma MaskIsOneHot(gt: Raster, p: nat)
    requires gt.Plane? && Valid(gt) && p < |gt.px|
    ensures var px := PixelChannels(EncodeMask(gt), p);
      && (forall c :: 0 <= c < 3 ==> px[c] == 0.0 || px[c] == 1.0)
      && px[0] + px[1] + px[2] == 1.0
      && px[TissueIndex(Classify(gt.px[p]))] == 1.0
  {
    assert PixelChannels(EncodeMask(gt), p) == OneHotOf(Classify(gt.px[p]));
  }

  /** np.reshape to new dimensions: the row-major element sequence is kept;
      numpy refuses dimensions with a different element count. */
  function Reshape(a: Array3, d0: nat, d1: nat, d2: nat): (r: Result<Array3, DataError>)
    ensures r.Success? <==> d0 * d1 * d2 == |a.data|
    ensures r.Success? ==> r.value.data == a.data && r.value.d0 == d0 && r.value.d1 == d1 && r.value.d2 == d2
  {
    if d0 * d1 * d2 != |a.data| then Failure(ReshapeSizeMismatch(|a.data|, d0 * d1 * d2))
    else Success(Array3(d0, d1, d2, a.data))
  }

  /** The reshape of train.py line 85 is not a transpose: for a 1x2 ground truth with
      an ovary pixel and then a background pixel, element (1, 0, 0) of the
      (3, H, W) result is 0 although pixel (0, 0) is ovary. */
  lemma ReshapeIsNotTranspose()
    ensures var gt := Plane(1, 2, [128, 0]);
      var m := EncodeMask(gt);
      var t := Reshape(m, 3, 1, 2);
      && t.Success?
      && At(m, 0, 0, 1) == 1.0
      && At(t.value, 1, 0, 0) == 0.0
  {
    var gt := Plane(1, 2, [128, 0]);
    var m := EncodeMask(gt);
    assert PixelChannels(m, 0) == OneHotOf(Ovary);
    assert PixelChannels(m, 1) == OneHotOf(Background);
    assert m.data[1] == 1.0 && m.data[2] == 0.0;
  }

  /** What UltrasoundDataset.__getitem__ returns besides the name: the
      reduced image, the reduced ground truth (the gray mask before its
      division by 255) and the reshaped one-hot mask. */
  datatype Sample = Sample(image: Raster, grayMask: Raster, multiMask: Array3)

  /** One sample from the decoded image and ground-truth arrays. */
  function GetItem(image: Raster, gt: Raster): (r: Result<Sample, DataError>)
    requires Valid(image) && Valid(gt)
    ensures r.Success? <==> (image.Stack? ==> image.c > 0) && (gt.Stack? ==> gt.c > 0)
    ensures r.Success? ==>
      var s := r.value;
      && s.image.Plane? && s.image.h == image.h && s.image.w == image.w
      && s.grayMask.Plane? && Valid(s.grayMask) && s.grayMask.h == gt.h && s.grayMask.w == gt.w
      && s.multiMask.d0 == 3 && s.multiMask.d1 == gt.h && s.multiMask.d2 == gt.w
      && s.multiMask.data == EncodeMask(s.grayMask).data
    ensures r.Success? ==> r.value.image == ChannelZero(image).value && r.value.grayMask == ChannelZero(gt).value
  {
    var im :- ChannelZero(image);
    var g :- ChannelZero(gt);
    var m := EncodeMask(g);
    match Reshape(m, m.d2, m.d0, m.d1)
    case Success(shaped) => Success(Sample(im, g, shaped))
    case Failure(e) => Failure(e)
  }

  /** The ground truth a batch is scored against. */
  datatype GroundTruth = GrayTruth(gray: Raster) | MultiTruth(multi: Array3)

  /** The criterion as train_net tests it: an nn.CrossEntropyLoss, or a loss
      of any other type. */
  datatype Criterion = CrossEntropy | OtherLoss

  /** The gray mask for a cross-entropy criterion, the one-hot mask for any
      other. */
  function SelectGroundTruth(criterion: Criterion, s: Sample): (g: GroundTruth)
    ensures g.GrayTruth? <==> criterion == CrossEntropy
    ensures g.GrayTruth? ==> g.gray == s.grayMask
    ensures g.MultiTruth? ==> g.multi == s.multiMask
  {
    if criterion == CrossEntropy then GrayTruth(s.grayMask) else MultiTruth(s.multiMask)
  }

  /** The script builds Unet(n_channels=1, n_classes=3) at module level and
      passes it to train_net, which feeds it the reduced image with a channel
      axis added. When image and ground truth
      share a size whose sides are positive multiples of 64, the prediction
      has exactly the shape of the one-hot mask; any other size is refused
      by the network. */
  lemma TrainNetPredictionShape(image: Raster, gt: Raster)
    requires Valid(image) && Valid(gt) && GetItem(image, gt).Success?
    requires image.h == gt.h && image.w == gt.w
    ensures var s := GetItem(image, gt).value;
      Forward(MakeUnet(1, 3), Shape(1, s.image.h, s.image.w)).Success? <==>
        s.image.h >= 1 && s.image.w >= 1 && s.image.h % 64 == 0 && s.image.w % 64 == 0
    ensures var s := GetItem(image, gt).value;
      Forward(MakeUnet(1, 3), Shape(1, s.image.h, s.image.w)).Success? ==>
        Forward(MakeUnet(1, 3), Shape(1, s.image.h, s.image.w)).value ==
          OneMap(Shape(s.multiMask.d0, s.multiMask.d1, s.multiMask.d2))
  {
    var s := GetItem(image, gt).value;
    UnetForward(1, 3, Shape(1, s.image.h, s.image.w));
  }
}

=== FILE: train_names.dfy ===
/** Run names and the paths derived from them (python/main.py): gettrainname
    renders the start time as YYYYMMDD_hhmm in front of the network name. The
    clock is an input; time.gmtime itself is not part of this model. */
module TrainNames {
  import opened Results

  /** The time.struct_time fields gettrainname reads. */
  datatype Clock = Clock(year: nat, mon: nat, mday: nat, hour: nat, min: nat)

  predicate IsDigit(c: char) {
    '0' <= c <= '9'
  }

  predicate AllDigits(s: string) {
    forall i :: 0 <= i < |s| ==> IsDigit(s[i])
  }

  function DigitChar(d: nat): (c: char)
    requires d < 10
    ensures IsDigit(c)
  {
    ('0' as int + d) as char
  }

  function DigitValue(c: char): (d: nat)
    requires IsDigit(c)
    ensures d < 10 && DigitChar(d) == c
  {
    c as int - '0' as int
  }

  /** Python's str() of a non-negative int: decimal, no leading zero. */
  function NatToString(n: nat): (r: string)
    ensures AllDigits(r)
    ensures |r| >= 1
    ensures |r| == 1 <==> n <= 9
    ensures r[0] == '0' ==> n == 0
    decreases n
  {
    if n < 10 then [DigitChar(n)] else NatToString(n / 10) + [DigitChar(n % 10)]
  }

  /** The value of a string of decimal digits (leading zeros allowed). */
  function ParseDigits(s: string): nat
    requires AllDigits(s)
    decreases |s|
  {
    if |s| == 0 then 0 else 10 * ParseDigits(s[..|s| - 1]) + DigitValue(s[|s| - 1])
  }

  /** Reading back str(n) gives n. */
  lemma {:induction false} ParseNatToString(n: nat)
    ensures ParseDigits(NatToString(n)) == n
    decreases n
  {
    var r := NatToString(n);
    if n >= 10 {
      ParseNatToString(n / 10);
      assert r[..|r| - 1] == NatToString(n / 10);
    }
  }

  /** A leading zero does not change the value of a digit string. */
  lemma {:induction false} ParseLeadingZero(s: string)
    requires AllDigits(s)
    ensures AllDigits("0" + s) && ParseDigits("0" + s) == ParseDigits(s)
    decreases |s|
  {
    if |s| > 0 {
      assert ("0" + s)[..|"0" + s| - 1] == "0" + s[..|s| - 1];
      ParseLeadingZero(s[..|s| - 1]);
    }
  }

  /** A four-digit year is rendered with four characters. */
  lemma FourDigits(n: nat)
    requires 1000 <= n <= 9999
    ensures |NatToString(n)| == 4
  {
    assert |NatToString(n / 1000)| == 1;
    assert |NatToString(n / 100)| == 2 by {
      assert n / 100 / 10 == n / 1000;
    }
    assert |NatToString(n / 10)| == 3 by {
      assert n / 10 / 10 == n / 100;
    }
  }

  /** One time field as gettrainname renders it: '0' in front exactly when
      the value is at most 9. */
  function Pad2(v: nat): (r: string)
    ensures AllDigits(r) && |r| >= 2
    ensures r[0] == '0' <==> v <= 9
    ensures v <= 99 ==> |r| == 2
    ensures ParseDigits(r) == v
  {
    ParseNatToString(v);
    if v > 9 then NatToString(v)
    else
      ParseLeadingZero(NatToString(v));
      "0" + NatToString(v)
  }

  /** gettrainname: YYYYMMDD_hhmm_name. */
  function TrainName(name: string, t: Clock): string {
    NatToString(t.year) + Pad2(t.mon) + Pad2(t.mday) + "_" + Pad2(t.hour) + Pad2(t.min) + "_" + name
  }

  /** Reads a run name laid out as gettrainname writes it for a four-digit
      year; None when the string does not have that layout. */
  function ParseTrainName(s: string): Option<(Clock, string)> {
    if |s| >= 14 && AllDigits(s[..8]) && s[8] == '_' && AllDigits(s[9..13]) && s[13] == '_' then
      assert AllDigits(s[..4]) && AllDigits(s[4..6]) && AllDigits(s[6..8]);
      assert AllDigits(s[9..11]) && AllDigits(s[11..13]) by {
        assert s[9..11] == s[9..13][..2] && s[11..13] == s[9..13][2..];
      }
      Some((Clock(ParseDigits(s[..4]), ParseDigits(s[4..6]), ParseDigits(s[6..8]),
                  ParseDigits(s[9..11]), ParseDigits(s[11..13])), s[14..]))
    else None
  }

  /** For a four-digit year and time fields below 100, the run name gives back
      the clock and the network name it was made from: every field has a
      fixed width because of the zero padding. */
  lemma TrainNameRoundTrip(name: string, t: Clock)
    requires 1000 <= t.year <= 9999 && t.mon <= 99 && t.mday <= 99 && t.hour <= 99 && t.min <= 99
    ensures ParseTrainName(TrainName(name, t)) == Some((t, name))
  {
    var y, mo, d, h, mi := NatToString(t.year), Pad2(t.mon), Pad2(t.mday), Pad2(t.hour), Pad2(t.min);
    FourDigits(t.year);
    ParseNatToString(t.year);
    var s := TrainName(name, t);
    assert s == y + mo + d + "_" + h + mi + "_" + name;
    assert s[..4] == y;
    assert s[4..6] == mo;
    assert s[6..8] == d;
    assert s[8] == '_';
    assert s[9..11] == h;
    assert s[11..13] == mi;
    assert s[13] == '_';
    assert s[14..] == name;
    assert s[..8] == y + mo + d;
    assert s[9..13] == h + mi;
  }

  /** Checkpoint file of a run. */
  function WeightsPath(trainName: string): (r: string)
    ensures |r| == |trainName| + 27
    ensures r[..11] == "../weights/" && r[|r| - 16..] == "_weights.pth.tar"
    ensures r[11..|r| - 16] == trainName
  {
    "../weights/" + trainName + "_weights.pth.tar"
  }

  /** Log directory of a run. */
  function LogDir(trainName: string): (r: string)
    ensures |r| == |trainName| + 9
    ensures r[..8] == "../logs/" && r[|r| - 1] == '/'
    ensures r[8..|r| - 1] == trainName
  {
    "../logs/" + trainName + "/"
  }

  /** Different run names never share a checkpoint file or a log directory. */
  lemma RunPathsInjective(a: string, b: string)
    requires a != b
    ensures WeightsPath(a) != WeightsPath(b)
    ensures LogDir(a) != LogDir(b)
  {
  }
}

=== FILE: unets.dfy ===
/** The networks of python/nets/unet.py: Unet, Unet2 (one or several output
    heads) and InstSegNet, abstracted to the shapes they produce. */
module UNets {
  import opened Results
  import opened Arith
  import opened Layers
  import opened Blocks

  /** The number of output classes: one count, or one count per output head. */
  datatype Classes = Scalar(n: nat) | PerHead(counts: seq<nat>)

  /** The output layer: one outconv, or a list of them (nn.ModuleList). */
  datatype Head = OneHead(block: ConvBlock) | HeadList(blocks: seq<ConvBlock>)

  /** An encoder/decoder network: input block, downconv stages (outermost
      first), upconv stages (innermost first, in declaration order) and head. */
  datatype UNet = UNet(init: ConvBlock, downs: seq<ConvBlock>, ups: seq<UpConv>, head: Head)

  /** What a forward pass returns: one map, or a list of maps. */
  datatype Output = OneMap(shape: Shape) | MapList(shapes: seq<Shape>)

  /** conv_down1 .. conv_down6, shared by Unet and Unet2. */
  function Encoder(): seq<ConvBlock> {
    [ Downconv(8, 8, dropout := 0.2),
      Downconv(8, 16, dropout := 0.2),
      Downconv(16, 24, dropout := 0.2),
      Downconv(24, 32, dropout := 0.2),
      Downconv(32, 40, dropout := 0.2),
      Downconv(40, 48, dropout := 0.2) ]
  }

  /** conv_up1 .. conv_up6, shared by Unet and Unet2. */
  function Decoder(): seq<UpConv> {
    [ Upconv(48, 320, resCh := 40, dropout := 0.2),
      Upconv(320, 256, resCh := 32, dropout := 0.2),
      Upconv(256, 192, resCh := 24, dropout := 0.2),
      Upconv(192, 128, resCh := 16, dropout := 0.2),
      Upconv(128, 64, resCh := 8, dropout := 0.2),
      Upconv(64, 8, resCh := 8, dropout := 0.2) ]
  }

  /** The Unet class. */
  function MakeUnet(nChannels: nat, nClasses: nat): UNet {
    UNet(Inconv(nChannels, 8), Encoder(), Decoder(), OneHead(Outconv(8, nClasses)))
  }

  /** The Unet2 class: a list of class counts gives one outconv per entry. */
  function MakeUnet2(nChannels: nat, nClasses: Classes): UNet {
    var head := match nClasses
      case Scalar(n) => OneHead(Outconv(8, n))
      case PerHead(ns) => HeadList(seq(|ns|, i requires 0 <= i < |ns| => Outconv(8, ns[i])));
    UNet(Inconv(nChannels, 8), Encoder(), Decoder(), head)
  }

  /** Channels of the tensor entering level k of the encoder; it is also the
      skip tensor handed to the upconv of that level. */
  function LevelCh(net: UNet, k: nat): nat
    requires k <= |net.downs|
  {
    if k == 0 then net.init.outCh else net.downs[k - 1].outCh
  }

  /** Channels leaving level k of the body (the innermost level passes its
      input through). */
  function CoreCh(net: UNet, k: nat): nat
    requires |net.downs| == |net.ups| && k <= |net.downs|
  {
    if k == |net.downs| then LevelCh(net, k) else net.ups[|net.ups| - 1 - k].outCh
  }

  /** Level k of the body: downconv, the inner levels, then the paired upconv
      with the level's input as skip tensor. Down stage k is paired with up
      stage n-1-k, so conv_up1 receives dc_x5 and conv_up6 receives c_x0. */
  function Core(net: UNet, k: nat, x: Shape): (r: Result<Shape, ShapeError>)
    requires |net.downs| == |net.ups| && k <= |net.downs|
    ensures r.Success? ==> r.value.h == x.h && r.value.w == x.w
    decreases |net.downs| - k
  {
    if k == |net.downs| then Success(x)
    else
      var d :- BlockForward(net.downs[k], x);
      var inner :- Core(net, k + 1, d);
      UpForwardShape(net.ups[|net.ups| - 1 - k], inner, x);
      UpForward(net.ups[|net.ups| - 1 - k], inner, Some(x))
  }

  /** Runs every head block on the same tensor, in list order. */
  function HeadsForward(bs: seq<ConvBlock>, x: Shape): (r: Result<seq<Shape>, ShapeError>)
    ensures r.Success? <==> forall i :: 0 <= i < |bs| ==> BlockForward(bs[i], x).Success?
    ensures r.Success? ==> |r.value| == |bs| && forall i :: 0 <= i < |bs| ==> r.value[i] == BlockForward(bs[i], x).value
    decreases |bs|
  {
    if |bs| == 0 then Success([])
    else
      var y :- BlockForward(bs[0], x);
      var rest :- HeadsForward(bs[1..], x);
      Success([y] + rest)
  }

  /** Shape of the network's output for one input. */
  function Forward(net: UNet, x: Shape): Result<Output, ShapeError>
    requires |net.downs| == |net.ups|
  {
    var c0 :- BlockForward(net.init, x);
    var body :- Core(net, 0, c0);
    ApplyHead(net.head, body)
  }

  /** The output layer applied to the body's output: one map, or one map per
      head in list order. */
  function ApplyHead(head: Head, body: Shape): Result<Output, ShapeError> {
    match head
    case OneHead(b) =>
      var y :- BlockForward(b, body);
      Success(OneMap(y))
    case HeadList(bs) =>
      var ys :- HeadsForward(bs, body);
      Success(MapList(ys))
  }

  /** Every head is an outconv reading c channels. */
  predicate HeadsFit(head: Head, c: nat) {
    match head
    case OneHead(b) => b.kind == Out && b.inCh == c
    case HeadList(bs) => forall i :: 0 <= i < |bs| ==> bs[i].kind == Out && bs[i].inCh == c
  }

  /** Level k is wired: its downconv reads what the level above produced,
      and its paired upconv (up stage n-1-k) reads the level below's output
      and takes the level's input, of LevelCh channels, as skip tensor. */
  predicate LevelWired(net: UNet, k: nat)
    requires |net.downs| == |net.ups| && k < |net.downs|
  {
    var up := net.ups[|net.ups| - 1 - k];
    && net.downs[k].kind == Down && net.downs[k].inCh == LevelCh(net, k)
    && up.resCh == LevelCh(net, k) && up.inCh == CoreCh(net, k + 1)
  }

  /** The channel wiring the encoder/decoder design needs: as many up stages
      as down stages, every stage wired as above, and heads that read the
      body's output. */
  predicate WellWired(net: UNet) {
    && |net.downs| == |net.ups|
    && net.init.kind == In
    && (forall k :: 0 <= k < |net.downs| ==> LevelWired(net, k))
    && HeadsFit(net.head, CoreCh(net, 0))
  }

  /** Levels k and deeper are wired as WellWired demands. */
  predicate WiredFrom(net: UNet, k: nat)
    requires |net.downs| == |net.ups| && k <= |net.downs|
    decreases |net.downs| - k
  {
    k == |net.downs| || (LevelWired(net, k) && WiredFrom(net, k + 1))
  }

  /** A well-wired network is wired from every level down. */
  lemma {:induction false} WellWiredFrom(net: UNet, k: nat)
    requires WellWired(net) && k <= |net.downs|
    ensures WiredFrom(net, k)
    decreases |net.downs| - k
  {
    if k < |net.downs| {
      assert LevelWired(net, k);
      WellWiredFrom(net, k + 1);
    }
  }

  /** The maps a network's heads produce at height h and width w. */
  function HeadShapes(head: Head, h: nat, w: nat): Output {
    match head
    case OneHead(b) => OneMap(Shape(b.outCh, h, w))
    case HeadList(bs) => MapList(seq(|bs|, i requires 0 <= i < |bs| => Shape(bs[i].outCh, h, w)))
  }

  /** In a well-wired body, level k accepts its input exactly when height and
      width halve evenly once per level below k — every skip concatenation
      then lines up — and returns a tensor of the same size. */
  lemma {:induction false} CoreShape(net: UNet, k: nat, h: nat, w: nat)
    requires |net.downs| == |net.ups| && k <= |net.downs| && WiredFrom(net, k)
    ensures var r := Core(net, k, Shape(LevelCh(net, k), h, w));
      && (r.Success? <==> k == |net.downs| || (Halves(h, |net.downs| - k) && Halves(w, |net.downs| - k)))
      && (r.Success? ==> r.value == Shape(CoreCh(net, k), h, w))
    decreases |net.downs| - k, 1
  {
    if k < |net.downs| {
      if h >= 1 && w >= 1 {
        CoreLevel(net, k, h, w);
      } else {
        CoreEmpty(net, k, h, w);
      }
    }
  }

  /** The inductive step of CoreShape: level k closes exactly when the input
      halves evenly and the level below accepts the halved input. */
  lemma {:induction false} CoreLevel(net: UNet, k: nat, h: nat, w: nat)
    requires |net.downs| == |net.ups| && k < |net.downs| && WiredFrom(net, k) && h >= 1 && w >= 1
    ensures var r := Core(net, k, Shape(LevelCh(net, k), h, w));
      && (r.Success? <==> Halves(h, |net.downs| - k) && Halves(w, |net.downs| - k))
      && (r.Success? ==> r.value == Shape(CoreCh(net, k), h, w))
    decreases |net.downs| - k, 0
  {
    var n := |net.downs|;
    var x := Shape(LevelCh(net, k), h, w);
    var d := Shape(LevelCh(net, k + 1), CeilHalf(h), CeilHalf(w));
    assert LevelWired(net, k) && WiredFrom(net, k + 1);
    CoreShape(net, k + 1, CeilHalf(h), CeilHalf(w));
    DownBlock(net.downs[k], x);
    assert BlockForward(net.downs[k], x) == Success(d);
    CoreStep(net, k, x);
    LevelStep(net.ups[n - 1 - k], Core(net, k + 1, d), x, n - k - 1, CoreCh(net, k + 1));
  }

  /** Below the innermost level, an empty input is refused by the level's
      downconv. */
  lemma CoreEmpty(net: UNet, k: nat, h: nat, w: nat)
    requires |net.downs| == |net.ups| && k < |net.downs| && LevelWired(net, k)
    requires h == 0 || w == 0
    ensures Core(net, k, Shape(LevelCh(net, k), h, w)).Failure?
  {
    DownBlock(net.downs[k], Shape(LevelCh(net, k), h, w));
    CoreStep(net, k, Shape(LevelCh(net, k), h, w));
  }

  /** One unfolding of Core below the innermost level. */
  lemma CoreStep(net: UNet, k: nat, x: Shape)
    requires |net.downs| == |net.ups| && k < |net.downs|
    ensures Core(net, k, x) ==
      match BlockForward(net.downs[k], x)
      case Failure(e) => Failure(e)
      case Success(d) =>
        match Core(net, k + 1, d)
        case Failure(e) => Failure(e)
        case Success(inner) => UpForward(net.ups[|net.ups| - 1 - k], inner, Some(x))
  {
  }

  /** One level of the induction: the upconv of level k closes the level
      exactly when the level's input halves evenly. */
  lemma LevelStep(up: UpConv, inner: Result<Shape, ShapeError>, x: Shape, m: nat, innerCh: nat)
    requires x.h >= 1 && x.w >= 1
    requires up.resCh == x.ch && up.inCh == innerCh
    requires inner.Success? <==>
      m == 0 || (Halves(CeilHalf(x.h), m) && Halves(CeilHalf(x.w), m))
    requires inner.Success? ==> inner.value == Shape(innerCh, CeilHalf(x.h), CeilHalf(x.w))
    ensures (inner.Success? && UpForward(up, inner.value, Some(x)).Success?) <==>
      Halves(x.h, m + 1) && Halves(x.w, m + 1)
    ensures inner.Success? && UpForward(up, inner.value, Some(x)).Success? ==>
      UpForward(up, inner.value, Some(x)).value == Shape(up.outCh, x.h, x.w)
  {
    EvenHalf(x.h);
    EvenHalf(x.w);
    if inner.Success? {
      UpForwardShape(up, inner.value, x);
    }
  }

  /** A well-wired network accepts exactly the inputs with the input block's
      channel count whose height and width are positive multiples of
      2^(number of stages); its maps then have the input's height and width
      and each head's class count as channels. */
  lemma ForwardShape(net: UNet, x: Shape)
    requires WellWired(net)
    ensures Forward(net, x).Success? <==>
      x.ch == net.init.inCh && x.h >= 1 && x.w >= 1
      && x.h % Pow2(|net.downs|) == 0 && x.w % Pow2(|net.downs|) == 0
    ensures Forward(net, x).Success? ==> Forward(net, x).value == HeadShapes(net.head, x.h, x.w)
  {
    SameSizeBlock(net.init, x);
    if x.ch == net.init.inCh && x.h >= 1 && x.w >= 1 {
      var c0 := Shape(LevelCh(net, 0), x.h, x.w);
      assert BlockForward(net.init, x) == Success(c0);
      BodyShape(net, x.h, x.w);
      var r := Core(net, 0, c0);
      if r.Success? {
        HeadsShape(net.head, CoreCh(net, 0), x.h, x.w);
        assert Forward(net, x) == ApplyHead(net.head, r.value);
      } else {
        assert Forward(net, x).Failure?;
      }
    } else {
      assert Forward(net, x).Failure?;
    }
  }

  /** The whole encoder/decoder body of a well-wired network accepts a
      non-empty input exactly when its sides are multiples of 2^(stages), and
      keeps its size. */
  lemma BodyShape(net: UNet, h: nat, w: nat)
    requires WellWired(net) && h >= 1 && w >= 1
    ensures var r := Core(net, 0, Shape(LevelCh(net, 0), h, w));
      && (r.Success? <==> h % Pow2(|net.downs|) == 0 && w % Pow2(|net.downs|) == 0)
      && (r.Success? ==> r.value == Shape(CoreCh(net, 0), h, w))
  {
    var n := |net.downs|;
    WellWiredFrom(net, 0);
    CoreShape(net, 0, h, w);
    HalvesPow2(h, n);
    HalvesPow2(w, n);
    assert (n == 0 || (Halves(h, n - 0) && Halves(w, n - 0))) <==> h % Pow2(n) == 0 && w % Pow2(n) == 0 by {
      if n == 0 {
        assert Pow2(0) == 1;
      }
    }
  }

  /** Heads that read c channels map an h x w tensor to their class counts at
      the same size. */
  lemma HeadsShape(head: Head, c: nat, h: nat, w: nat)
    requires HeadsFit(head, c) && h >= 1 && w >= 1
    ensures ApplyHead(head, Shape(c, h, w)) == Success(HeadShapes(head, h, w))
  {
    match head
    case OneHead(b) =>
      SameSizeBlock(b, Shape(c, h, w));
    case HeadList(bs) =>
      forall i | 0 <= i < |bs|
        ensures BlockForward(bs[i], Shape(c, h, w)) == Success(Shape(bs[i].outCh, h, w))
      {
        SameSizeBlock(bs[i], Shape(c, h, w));
      }
      assert HeadsForward(bs, Shape(c, h, w)).value == HeadShapes(head, h, w).shapes;
  }

  /** Unet2 is well wired for every input depth and class configuration: six
      stages, skip tensors of 40, 32, 24, 16, 8 and 8 channels for conv_up1 ..
      conv_up6, and an 8-channel body output for the heads. */
  lemma Unet2Wiring(nChannels: nat, nClasses: Classes)
    ensures WellWired(MakeUnet2(nChannels, nClasses))
    ensures |MakeUnet2(nChannels, nClasses).downs| == 6
    ensures var net := MakeUnet2(nChannels, nClasses);
      seq(6, j requires 0 <= j < 6 => net.ups[j].resCh) == [40, 32, 24, 16, 8, 8]
      && CoreCh(net, 0) == 8
  {
    var net := MakeUnet2(nChannels, nClasses);
    assert seq(6, j requires 0 <= j < 6 => net.ups[j].resCh) == [40, 32, 24, 16, 8, 8];
  }

  /** Unet is well wired for every input depth and class count. */
  lemma UnetWiring(nChannels: nat, nClasses: nat)
    ensures WellWired(MakeUnet(nChannels, nClasses))
    ensures |MakeUnet(nChannels, nClasses).downs| == 6
  {
  }

  /** Every single-convolution block of a network constructs; upconv blocks
      always do (Blocks.UpconvBuilds). */
  predicate Constructs(net: UNet) {
    && BuildBlock(net.init).Success?
    && (forall k :: 0 <= k < |net.downs| ==> BuildBlock(net.downs[k]).Success?)
    && match net.head
       case OneHead(b) => BuildBlock(b).Success?
       case HeadList(bs) => forall i :: 0 <= i < |bs| ==> BuildBlock(bs[i]).Success?
  }

  /** Unet, Unet2 and InstSegNet construct for every argument: their dropout
      rates are 0 or 0.2, so no Dropout2d refuses its rate. */
  lemma NetworksConstruct(nChannels: nat, nClasses: nat, classes: Classes, nFeatures: nat)
    ensures Constructs(MakeUnet(nChannels, nClasses))
    ensures Constructs(MakeUnet2(nChannels, classes))
    ensures Constructs(MakeInstSegNet(nChannels, nFeatures).body)
      && BuildBlock(MakeInstSegNet(nChannels, nFeatures).out).Success?
  {
  }

  /** Unet2 accepts an input exactly when it has n_channels channels and its
      height and width are positive multiples of 64; it then returns one map
      of the input's size per class count, in list order, or a single map
      for a scalar class count. */
  lemma Unet2Forward(nChannels: nat, nClasses: Classes, x: Shape)
    ensures Forward(MakeUnet2(nChannels, nClasses), x).Success? <==>
      x.ch == nChannels && x.h >= 1 && x.w >= 1 && x.h % 64 == 0 && x.w % 64 == 0
    ensures Forward(MakeUnet2(nChannels, nClasses), x).Success? ==>
      match nClasses
      case Scalar(n) => Forward(MakeUnet2(nChannels, nClasses), x).value == OneMap(Shape(n, x.h, x.w))
      case PerHead(ns) =>
        var out := Forward(MakeUnet2(nChannels, nClasses), x).value;
        out.MapList? && |out.shapes| == |ns|
        && forall i :: 0 <= i < |ns| ==> out.shapes[i] == Shape(ns[i], x.h, x.w)
  {
    Unet2Wiring(nChannels, nClasses);
    ForwardShape(MakeUnet2(nChannels, nClasses), x);
    assert Pow2(6) == 64;
  }

  /** Unet accepts an input exactly when it has n_channels channels and its
      height and width are positive multiples of 64, and then returns one
      n_classes-channel map of the input's size. */
  lemma UnetForward(nChannels: nat, nClasses: nat, x: Shape)
    ensures Forward(MakeUnet(nChannels, nClasses), x).Success? <==>
      x.ch == nChannels && x.h >= 1 && x.w >= 1 && x.h % 64 == 0 && x.w % 64 == 0
    ensures Forward(MakeUnet(nChannels, nClasses), x).Success? ==>
      Forward(MakeUnet(nChannels, nClasses), x).value == OneMap(Shape(nClasses, x.h, x.w))
  {
    UnetWiring(nChannels, nClasses);
    ForwardShape(MakeUnet(nChannels, nClasses), x);
    assert Pow2(6) == 64;
  }

  /** The InstSegNet class: a Unet body with 8 output maps, followed by an
      outconv to the embedding features. */
  datatype InstSegNet = InstSegNet(body: UNet, out: ConvBlock)

  function MakeInstSegNet(nChannels: nat, nFeatures: nat): InstSegNet {
    InstSegNet(MakeUnet(nChannels, 8), Outconv(8, nFeatures))
  }

  /** Shape of InstSegNet's output: the body's single map through the
      embedding outconv. */
  function InstSegForward(net: InstSegNet, x: Shape): Result<Shape, ShapeError>
    requires |net.body.downs| == |net.body.ups| && net.body.head.OneHead?
  {
    var y :- Forward(net.body, x);
    BlockForward(net.out, y.shape)
  }

  /** The embedding head reads the body's 8 channels, so InstSegNet accepts
      exactly the inputs its body accepts and returns n_features maps of the
      input's size. */
  lemma InstSegForwardShape(nChannels: nat, nFeatures: nat, x: Shape)
    ensures InstSegForward(MakeInstSegNet(nChannels, nFeatures), x).Success? <==>
      x.ch == nChannels && x.h >= 1 && x.w >= 1 && x.h % 64 == 0 && x.w % 64 == 0
    ensures InstSegForward(MakeInstSegNet(nChannels, nFeatures), x).Success? ==>
      InstSegForward(MakeInstSegNet(nChannels, nFeatures), x).value == Shape(nFeatures, x.h, x.w)
  {
    var net := MakeInstSegNet(nChannels, nFeatures);
    UnetForward(nChannels, 8, x);
    if Forward(net.body, x).Success? {
      SameSizeBlock(net.out, Shape(8, x.h, x.w));
    }
  }
}
